=== FILE: README.md ===
# BitRobot dashboard: formatters, carousel navigation and chart scaling

The dashboard is a React front end. It has four small pieces of logic, and
this project models each as pure Dafny functions and proves properties of them:

- **String formatters** (`lib/format.ts`, with a second copy in `helpers/format.ts`):
  - `formatNumber` chooses a compact suffix (B, M, k) or plain decimal text.
  - `truncateText` cuts text at a maximum length and appends `...`.
  - `formatAddress` shortens a wallet address to *head...tail*.
- **Discover carousel** (`components/dashboard/DiscoverCarousel.tsx`):
  - The current-slide index starts at 0.
  - The next and previous arrows move it with wrap-around.
  - Each item has one indicator dot, and clicking a dot jumps to its slide.
  - Exactly one dot is shown as active.
- **Earnings chart** (`components/dashboard/EarningsHistory.tsx`): bar heights and
  gridline offsets are a linear map from the fixed value domain [700, 1100] onto
  a chart 240 pixels tall.

Modules:

| file | module | models |
|---|---|---|
| `utf16.dfy` | `Utf16` | JavaScript strings as sequences of UTF-16 code units, with the encoding of text into them and back |
| `js.dfy` | `Js` | JavaScript's `String.prototype.slice` (negative indices count from the end) and its truncating `%` |
| `decimal.dfy` | `Decimal` | `Number.prototype.toString` of an integer, and a parser that reads it back |
| `format.dfy` | `Format` | `lib/format.ts` |
| `helpers_format.dfy` | `HelpersFormat` | `helpers/format.ts`, proved equal to `Format` on every input |
| `carousel.dfy` | `Carousel` | the index state machine of `DiscoverCarousel.tsx` |
| `earnings_chart.dfy` | `EarningsChart` | `getBarHeight` and `getGridLinePosition` of `EarningsHistory.tsx` |

A JavaScript string is a sequence of UTF-16 code units: `.length` counts code
units, and `slice` cuts between them. The formatters therefore work on
`Utf16.JsString`. A character outside the Basic Multilingual Plane, such as
an emoji, takes two code units, and a cut can fall between them.
`Format.TruncateTextSplitsSurrogatePair` shows this. The unit tests' strings
are ASCII and are written with `Utf16.FromCharCodes`, one code unit per
character. `Utf16.FromCharCodesEncode` proves that this is their UTF-16 form.

Counts and lengths are JavaScript numbers. The model takes them as integers,
and negative values follow the semantics of `slice`, as the code does. One
consequence is that `formatAddress(a, s, 0)` takes `a.slice(-0)` as its tail,
and that is the whole address. Chart values are exact reals.

Where the code and its documentation disagree, the model follows the code:

- The doc comments of `truncateText` (lib/format.ts:57, and the same line
  helpers/format.ts:57 of the copy) give `truncateText("Hello World", 8)` as
  `"Hello..."`. The code and the unit test
  give `"Hello Wo..."`: the first `maxLength` characters plus the ellipsis.
- For `maxLength >= 0`, a text longer than the limit comes back
  `maxLength + 3` code units long. This can be longer than the input: nine
  characters truncated at 8 become eleven (`Format.TruncateTextCanLengthen`).
  A negative limit cuts from the end instead, and the text still gains the
  ellipsis: `truncateText("abc", -1)` is `"ab..."`, five long.
- The bar height has a floor at 0 but no cap at 240. A value above 1100 draws a
  bar taller than the chart: 1150 gives 270. No clamp to the top of the domain
  is modelled, because the code has none.

## Model

| member | source | states |
|---|---|---|
| `Utf16.Encode` | lib/format.ts:62 | a text takes at least one and at most two code units per character, and `.length` counts these units |
| `Utf16.DecodeEncode` | lib/format.ts:61-63 | reading the code units of any text back gives the text, so the code-unit form loses nothing |
| `Utf16.EncodeAppend` | lib/format.ts:63 | the code units of joined texts are the joined code units, as template literals join strings |
| `Utf16.EncodeBmpLength` | lib/format.ts:62 | text in the Basic Multilingual Plane has one code unit per character |
| `Utf16.FromCharCodesEncode` | lib/format.test.ts:46-86 | for text in the Basic Multilingual Plane, such as the tests' ASCII strings, one code unit per character is exactly the UTF-16 form |
| `Js.Slice` | lib/format.ts:63 | `slice(start, end)` is the ordinary sub-sequence for in-range indices; an end past the length keeps the rest of the string; a negative start or end counts from the back; an end below minus the length, or a non-negative end not after the start, gives the empty string |
| `Js.SliceFrom` | lib/format.ts:87 | `slice(start)` is the suffix from `start`; a negative start keeps that many units from the end, and one beyond the length keeps everything |
| `Js.Rem` | components/dashboard/DiscoverCarousel.tsx:48-57 | JavaScript's `%` with a positive divisor has magnitude below the divisor and the sign of the dividend; it agrees with Dafny's `%` on non-negative dividends |
| `Decimal.IntToString` | lib/format.ts:30 | `toString` of an integer is canonical digit text, preceded by `-` exactly for negative numbers |
| `Decimal.NatToDecimal` | lib/format.ts:30 | the text of a natural is non-empty, all digits, has no leading zero, and is one digit exactly when the number is below 10 |
| `Decimal.NatToDecimalRoundTrip` | lib/format.ts:30 | reading the rendered digits back gives the number |
| `Decimal.DecimalValueRoundTrip` | lib/format.ts:30 | rendering the value of any canonical digit text gives that text back, so rendering is a bijection onto canonical text |
| `Decimal.IntToStringRoundTrip` | lib/format.ts:30 | the plain text of any integer, negative ones included, parses back to that integer |
| `Format.FormatNumber` | lib/format.ts:20-31 | the result is plain exactly below 1000; from 1000 up, `toFixed` throws a RangeError exactly when `decimals` is outside 0..100, and otherwise the suffix is B from 10^9, M from 10^6, k from 1000; the mantissa times the suffix's scale is the number; the mantissa is at least 1, and below 1000 unless the suffix is B; plain text is canonical (no leading zero, `-` only for negatives) and parses back to the number |
| `Format.FormatNumberMonotone` | lib/format.ts:21-29 | for a digit count `toFixed` accepts, a larger number never gets a smaller suffix |
| `Format.FormatNumberDefault` | lib/format.ts:20 | `formatNumber(num)` uses one decimal: it never throws, and a suffixed number is printed with one decimal |
| `Format.FormatNumberExamples` | lib/format.test.ts:9-32 | the suffix choices and exact mantissas of every unit test, the calls without a digit count through the default of one decimal, among them 5000000 as M and the digit counts 2 and 0, and "123" and "999" as plain text |
| `Format.TruncateText` | lib/format.ts:61-64 | text of at most `maxLength` code units is returned unchanged; longer text becomes its first `maxLength` code units plus "..."; a negative limit cuts that many units from the end; for `maxLength >= 0` the length is the input's length or `maxLength + 3` |
| `Format.TruncateTextIdempotent` | lib/format.ts:61-64 | for a non-negative limit, truncating twice gives the same result as truncating once |
| `Format.TruncateTextKeepsPrefix` | lib/format.ts:62-63 | for a non-negative limit, the result is either the text itself, or its first `maxLength` code units followed by exactly "..." |
| `Format.TruncateTextBmp` | lib/format.ts:61-64 | on text in the Basic Multilingual Plane, truncation keeps the first `maxLength` characters and appends "..." |
| `Format.TruncateTextSplitsSurrogatePair` | lib/format.ts:62-63 | two emoji are four code units; truncating at 3 keeps the first emoji and half of the second, which reads back as U+FFFD |
| `Format.TruncateTextCanLengthen` | lib/format.ts:61-64 | the nine-unit text "123456789" truncated at 8 becomes the eleven-unit "12345678...", longer than the input |
| `Format.TruncateTextNegativeNotIdempotent` | lib/format.ts:63 | with a negative limit, `"abc"` at -1 becomes `"ab..."`, and a second truncation gives `"ab....."`: the result changes and grows, so the operation is not idempotent |
| `Format.TruncateTextExamples` | lib/format.test.ts:46-61 | the exact outputs of the unit tests: a cut text, a short text, a text at the exact limit, and the empty string |
| `Format.FormatAddress` | lib/format.ts:81-88 | an address no longer than `startChars + endChars` is returned unchanged; a longer one becomes its head, then "...", then its last `endChars` code units; with `endChars == 0` the tail is the whole address |
| `Format.FormatAddressDefault` | lib/format.ts:81-87 | with the default counts 6 and 4, addresses of up to 10 code units are unchanged; longer ones become 13 units: the first six, "...", and the last four |
| `Format.FormatAddressShape` | lib/format.ts:87 | a shortened address is `startChars + endChars + 3` long and keeps the original head, the ellipsis and the original tail in place |
| `Format.FormatAddressIdempotent` | lib/format.ts:86-87 | when at least one tail character is kept, shortening an already shortened address changes nothing |
| `Format.FormatAddressZeroTailGrows` | lib/format.ts:87 | with `endChars = 0` and a head shorter than the address, `slice(-0)` appends the whole address: the result is `startChars + 3` units longer than the address, and a second application adds as much again |
| `Format.FormatAddressZeroTailExample` | lib/format.ts:87 | `"0x1234"` with counts 2/0 becomes `"0x...0x1234"`, and then `"0x...0x...0x1234"` |
| `Format.FormatAddressDefaultExample` | lib/format.test.ts:65-69 | the 42-character address with the default counts becomes `"0x1234...5678"` |
| `Format.FormatAddressLongExamples` | lib/format.test.ts:71-74 | the 42-character address with counts 4/4 and 8/6 becomes `"0x12...5678"` and `"0x123456...345678"` |
| `Format.FormatAddressShortExamples` | lib/format.test.ts:76-86 | the doc-comment example with counts 4/4, a short address, an address at the exact limit, and the empty string are returned as expected |
| `HelpersFormat.FormatNumber` | helpers/format.ts:20-31 | agrees with `Format.FormatNumber` on every input; for a digit count `toFixed` accepts, B, M and k are chosen exactly in their threshold ranges; a RangeError occurs exactly from 1000 up with a digit count outside 0..100 |
| `HelpersFormat.TruncateText` | helpers/format.ts:60-63 | agrees with `Format.TruncateText` on every input; short text is unchanged, longer text is cut and gets "..." |
| `HelpersFormat.FormatAddress` | helpers/format.ts:79-86 | agrees with `Format.FormatAddress` on every input; short addresses are unchanged, longer ones become head + "..." + tail |
| `HelpersFormat.FormatAddressDocExample` | helpers/format.ts:76-77 | `"0x1234567890abcdef"` with the defaults 6/4 gives `"0x1234...cdef"` |
| `Carousel.Next` | components/dashboard/DiscoverCarousel.tsx:47-49 | the next index is always in `[0, n)`; it is `i + 1` before the last slide, and the last slide wraps to 0 |
| `Carousel.Prev` | components/dashboard/DiscoverCarousel.tsx:56-58 | the previous index is always in `[0, n)`; it is `i - 1` after the first slide, and the first slide wraps to `n - 1` |
| `Carousel.Indicators` | components/dashboard/DiscoverCarousel.tsx:162-170 | for a valid current slide, exactly one of the dots is active, and it is the current slide's |
| `Carousel.Step` | components/dashboard/DiscoverCarousel.tsx:47-165 | every arrow click or dot click gives an index in `[0, n)`; clicking dot `k` shows slide `k` |
| `Carousel.RunStaysValid` | components/dashboard/DiscoverCarousel.tsx:40-60 | from a valid index, any sequence of clicks keeps the index valid, so the slide that is read always exists |
| `Carousel.PrevAfterNext` | components/dashboard/DiscoverCarousel.tsx:47-58 | the previous arrow undoes the next arrow for every valid index |
| `Carousel.NextAfterPrev` | components/dashboard/DiscoverCarousel.tsx:47-58 | the next arrow undoes the previous arrow for every valid index |
| `Carousel.NextNAdd` | components/dashboard/DiscoverCarousel.tsx:48 | `a + b` presses of next equal `a` presses followed by `b` presses |
| `Carousel.NextNWithoutWrap` | components/dashboard/DiscoverCarousel.tsx:48 | until the end of the list is reached, each press of next moves one slide on |
| `Carousel.CycleClosure` | components/dashboard/DiscoverCarousel.tsx:48 | pressing next once per item returns to the starting slide |
| `Carousel.CountActiveSingle` | components/dashboard/DiscoverCarousel.tsx:166-170 | a row of dots with exactly one active flag counts exactly one active dot |
| `Carousel.ExactlyOneActive` | components/dashboard/DiscoverCarousel.tsx:166-170 | exactly one indicator dot is active, and it belongs to the current slide |
| `Carousel.IndicatorClickActivates` | components/dashboard/DiscoverCarousel.tsx:162-170 | clicking dot `k` shows slide `k` and makes dot `k` the only active one |
| `Carousel.ThreeItemScenario` | components/dashboard/DiscoverCarousel.tsx:40-58 | from the initial slide of a three-item carousel, next goes 1, 2, 0 and previous goes to 2, as the tests at DiscoverCarousel.test.tsx:85-121 expect; beyond the tests, after dot 3 is clicked next wraps to 0, and with one item both arrows stay at 0 |
| `Carousel.Shown` | components/dashboard/DiscoverCarousel.tsx:60 | the item on show is one of the items, and it is the item whose indicator dot is active |
| `Carousel.InitialShowsFirst` | components/dashboard/DiscoverCarousel.tsx:40-60 | at mount the index is valid and the first item is shown |
| `EarningsChart.BarHeight` | components/dashboard/EarningsHistory.tsx:51-55 | a bar is never negative; values at or below 700 get no bar, and values above 700 get a positive one |
| `EarningsChart.GridLinePosition` | components/dashboard/EarningsHistory.tsx:60-64 | values within [700, 1100] have their gridline within [0, 240] pixels from the top |
| `EarningsChart.AxisEnds` | components/dashboard/EarningsHistory.tsx:44-64 | 700 gets no bar and its gridline at 240; 1100 gets a 240-pixel bar and its gridline at 0 |
| `EarningsChart.BarHeightMonotone` | components/dashboard/EarningsHistory.tsx:53-54 | a larger value never gets a shorter bar |
| `EarningsChart.BarHeightStrictlyMonotone` | components/dashboard/EarningsHistory.tsx:51-55 | from 700 upwards, a larger value gets a strictly taller bar |
| `EarningsChart.GridLinePositionStrictlyDecreasing` | components/dashboard/EarningsHistory.tsx:60-64 | a larger value's gridline is strictly higher |
| `EarningsChart.BarMeetsGridLine` | components/dashboard/EarningsHistory.tsx:51-64 | for values from 700 up, the bar height plus the gridline offset is 240, so a bar reaches exactly its value's gridline |
| `EarningsChart.BarHeightRoundTrip` | components/dashboard/EarningsHistory.tsx:51-55 | the linear inverse recovers a value of at least 700 from its bar height, and recovers every non-negative height |
| `EarningsChart.GridLinePositionRoundTrip` | components/dashboard/EarningsHistory.tsx:60-64 | the linear inverse recovers every value from its gridline offset, and every offset from its value |
| `EarningsChart.NoUpperClamp` | components/dashboard/EarningsHistory.test.tsx:77-87 | the test value 1150 gets a 270-pixel bar, taller than the chart |
| `EarningsChart.BarHeightExamples` | components/dashboard/EarningsHistory.tsx:51-55 | 800 gets 60 pixels, 1000 gets 180, and 650 gets none |
| `EarningsChart.GridLines` | components/dashboard/EarningsHistory.tsx:42-100 | the five y-axis gridlines lie within [0, 240], are 60 pixels apart, and run down the chart in order |
| `EarningsChart.BarHeights` | components/dashboard/EarningsHistory.tsx:110-128 | each data point gets a non-negative bar; the bar is zero exactly when the value is at most 700; it meets its gridline; bars keep the order of the values |

## Left out

- Format.FormatNumber: the digits produced by `toFixed(decimals)` are IEEE floating-point rounding. The model keeps the exact mantissa and `decimals`, but not the text.
- Format.FormatNumber: `num` is an integer. A non-integer `num` is left out on every path: on the suffix paths (1500.5 takes k) as well as on the plain path, whose `toString` is float formatting.
- Format.FormatNumber: NaN and the infinities are left out. NaN fails every threshold and prints "NaN"; Infinity takes the B suffix and prints "InfinityB"; -Infinity prints "-Infinity".
- Format.FormatNumber: `decimals` is an integer. `toFixed` truncates a non-integer digit count before its range check, and that truncation is not modelled.
- Format.FormatNumber: on the plain path, numbers below -2^53 are not written digit for digit by JavaScript (see `Decimal.IntToString`), so for them the plain text the model gives, which parses back to the number exactly, is not the text JavaScript prints.
- HelpersFormat.FormatNumber: the same five limits as `Format.FormatNumber` apply, since it is proved equal to it.
- Decimal.IntToString: JavaScript numbers are doubles. Above 2^53 in magnitude, `toString` writes the shortest digit string that rounds back to the double and pads it with zeros: 2^60 prints as `1152921504606847000`, not `1152921504606846976`. From 10^21 it switches to exponent notation. The model writes every digit exactly, so it matches JavaScript only up to 2^53 in magnitude. Only very negative numbers reach this case, since large positive ones take a suffix.
- Format.FormatAddress: the contract covers non-negative `startChars` and `endChars`. For negative counts the body follows `slice`, but no property is stated about them.
- Non-integer, NaN and infinite counts and lengths in `truncateText` and `formatAddress`: JavaScript numbers are modelled as integers.
- `formatWithCommas` and `formatValue`: both call `toLocaleString`, which depends on the host's locale.
- Carousel autoplay and hover pause: the component has no timer and no paused state. Only a test expects a 5000 ms auto-advance, and timers are event-loop behaviour.
- Carousel.RunStaysValid: the item list, and so `n`, is fixed for the whole run of clicks. A new `items` prop that shrinks the list while the index is kept is not modelled. The dashboard page passes a constant list (app/page.tsx:93 and :257).
- Carousel with no items: the component reads `items[0]` and crashes, and `% 0` is NaN. So every carousel operation requires at least one item.
- Click handlers of carousel actions: they are caller-supplied callbacks, and only their labels are modelled.
- Chart geometry as floating point: values are exact reals, so float rounding in the pixel values is not modelled. A degenerate domain cannot occur, because the code's domain is fixed at [700, 1100].
- Rendering: markup, styling, the y-axis label strings, and the DOM side effects of other components (menus, error boundary, hover states).
- EarningsCard's own `formatNumber` (components/dashboard/EarningsCard.tsx:33-41): a third k/M threshold formatter, with a fixed single decimal. It is left out because its text comes from `toFixed`, whose float rounding is out of scope here. Its suffix choice differs from `Format.FormatNumber`: it picks k from 1000 and M from 10^6 and has no B, so numbers from 10^9 up still get M (2000000000 prints as "2000.0M").
- Leaderboard, and the data and configuration files: they contain no logic beyond rendering.

=== FILE: carousel.dfy ===
/**
 The navigation state of the Discover carousel (`DiscoverCarousel.tsx`).
 Its only state is the index of the slide on show, starting at 0; the
 arrows step it forward and back with wrap-around, and the indicator dots,
 one per item, jump straight to their slide. The item list is never empty
 here: with no items the component reads a missing slide and crashes.
 */
module Carousel {
  import Js

  datatype Option<T> = None | Some(value: T)

  /** A button's label (`label` is a Dafny keyword); its click handler is
      the caller's and is not modelled. */
  datatype Action = Action(caption: string)

  datatype CarouselItem = CarouselItem(
    id: string,
    title: string,
    description: string,
    icon: string,
    primaryAction: Action,
    secondaryAction: Option<Action>)

  /** What the user can do: click an arrow or the indicator dot of a slide. */
  datatype Event = NextClicked | PrevClicked | IndicatorClicked(slide: nat)

  /** The index the carousel shows when it mounts. */
  const Initial: nat := 0

  predicate ValidIndex(i: int, n: nat) {
    0 <= i < n
  }

  /** `handleNext`: `(i + 1) % n`. */
  function Next(i: nat, n: nat): (r: nat)
    requires n >= 1
    ensures ValidIndex(r, n)
    ensures i + 1 < n ==> r == i + 1
    ensures i == n - 1 ==> r == 0
  {
    Js.Rem(i + 1, n)
  }

  /** `handlePrev`: `(i - 1 + n) % n`. */
  function Prev(i: nat, n: nat): (r: nat)
    requires n >= 1
    ensures ValidIndex(r, n)
    ensures 1 <= i <= n ==> r == i - 1
    ensures i == 0 ==> r == n - 1
  {
    Js.Rem(i - 1 + n, n)
  }

  /** Whether the indicator dot of `slide` is shown as the active one. */
  predicate IsActive(slide: int, current: nat) {
    slide == current
  }

  /** The active flags of the indicator dots, one per item in order. For a
      valid current slide exactly one dot is active, and it is that slide's. */
  function Indicators(current: nat, n: nat): (dots: seq<bool>)
    ensures |dots| == n
    ensures forall k :: 0 <= k < n ==> (dots[k] <==> IsActive(k, current))
    ensures ValidIndex(current, n) ==> dots[current] && CountActive(dots) == 1
  {
    var dots := seq(n, k => IsActive(k, current));
    if ValidIndex(current, n) then
      CountActiveSingle(dots, current);
      dots
    else
      dots
  }

  /** Only indicator dots that exist can be clicked. */
  predicate ValidEvent(e: Event, n: nat) {
    e.IndicatorClicked? ==> ValidIndex(e.slide, n)
  }

  /** The state after one event. */
  function Step(i: nat, n: nat, e: Event): (r: nat)
    requires n >= 1
    requires ValidEvent(e, n)
    ensures ValidIndex(r, n)
    ensures e.IndicatorClicked? ==> r == e.slide
  {
    match e
    case NextClicked => Next(i, n)
    case PrevClicked => Prev(i, n)
    case IndicatorClicked(k) => k
  }

  /** The state after a sequence of events, starting from `i`. */
  function Run(i: nat, n: nat, events: seq<Event>): nat
    requires n >= 1
    requires forall j :: 0 <= j < |events| ==> ValidEvent(events[j], n)
    decreases |events|
  {
    if |events| == 0 then i else Run(Step(i, n, events[0]), n, events[1..])
  }

  /** The item on show: one of the items, and the one whose indicator dot is
      the active one. */
  function Shown(items: seq<CarouselItem>, i: nat): (r: CarouselItem)
    requires ValidIndex(i, |items|)
    ensures r in items
    ensures forall k :: 0 <= k < |items| && Indicators(i, |items|)[k] ==> items[k] == r
  {
    items[i]
  }

  /** `n` presses of the next arrow. */
  function NextN(i: nat, n: nat, presses: nat): nat
    requires n >= 1
    decreases presses
  {
    if presses == 0 then i else NextN(Next(i, n), n, presses - 1)
  }

  /** Whatever events arrive, a valid index stays valid, so the item on show
      always exists. */
  lemma {:induction false} RunStaysValid(i: nat, n: nat, events: seq<Event>)
    requires n >= 1
    requires ValidIndex(i, n)
    requires forall j :: 0 <= j < |events| ==> ValidEvent(events[j], n)
    ensures ValidIndex(Run(i, n, events), n)
    decreases |events|
  {
    if |events| > 0 {
      RunStaysValid(Step(i, n, events[0]), n, events[1..]);
    }
  }

  /** The previous arrow undoes the next arrow. */
  lemma PrevAfterNext(i: nat, n: nat)
    requires n >= 1
    requires ValidIndex(i, n)
    ensures Prev(Next(i, n), n) == i
  {
  }

  /** The next arrow undoes the previous arrow. */
  lemma NextAfterPrev(i: nat, n: nat)
    requires n >= 1
    requires ValidIndex(i, n)
    ensures Next(Prev(i, n), n) == i
  {
  }

  /** Pressing next splits: `a + b` presses are `a` presses then `b`. */
  lemma {:induction false} NextNAdd(i: nat, n: nat, a: nat, b: nat)
    requires n >= 1
    ensures NextN(i, n, a + b) == NextN(NextN(i, n, a), n, b)
    decreases a
  {
    if a > 0 {
      NextNAdd(Next(i, n), n, a - 1, b);
    }
  }

  /** Before the end of the list is reached, each press moves one slide on. */
  lemma {:induction false} NextNWithoutWrap(i: nat, n: nat, presses: nat)
    requires n >= 1
    requires i + presses < n
    ensures NextN(i, n, presses) == i + presses
    decreases presses
  {
    if presses > 0 {
      NextNWithoutWrap(i + 1, n, presses - 1);
    }
  }

  /** Pressing next once per item comes back to where it started. */
  lemma CycleClosure(i: nat, n: nat)
    requires n >= 1
    requires ValidIndex(i, n)
    ensures NextN(i, n, n) == i
  {
    var toLast := n - 1 - i;
    NextNAdd(i, n, toLast, 1 + i);
    NextNWithoutWrap(i, n, toLast);
    assert NextN(n - 1, n, 1 + i) == NextN(0, n, i);
    NextNWithoutWrap(0, n, i);
  }

  /** The number of active indicator dots. */
  function CountActive(dots: seq<bool>): nat {
    if |dots| == 0 then 0 else (if dots[0] then 1 else 0) + CountActive(dots[1..])
  }

  /** A row of dots none of which is active counts zero. */
  lemma {:induction false} CountActiveNone(dots: seq<bool>)
    requires forall k :: 0 <= k < |dots| ==> !dots[k]
    ensures CountActive(dots) == 0
  {
    if |dots| > 0 {
      CountActiveNone(dots[1..]);
    }
  }

  /** A sequence with exactly one true flag, at `at`, counts one. */
  lemma {:induction false} CountActiveSingle(dots: seq<bool>, at: nat)
    requires at < |dots|
    requires forall k :: 0 <= k < |dots| ==> (dots[k] <==> k == at)
    ensures CountActive(dots) == 1
  {
    if at == 0 {
      CountActiveNone(dots[1..]);
    } else {
      CountActiveSingle(dots[1..], at - 1);
    }
  }

  /** Exactly one indicator dot is active, and it is the current slide's. */
  lemma ExactlyOneActive(current: nat, n: nat)
    requires ValidIndex(current, n)
    ensures CountActive(Indicators(current, n)) == 1
    ensures Indicators(current, n)[current]
  {
    CountActiveSingle(Indicators(current, n), current);
  }

  /** Clicking dot `k` shows slide `k` and makes dot `k` the active one. */
  lemma IndicatorClickActivates(i: nat, n: nat, k: nat)
    requires n >= 1
    requires ValidIndex(k, n)
    ensures Step(i, n, IndicatorClicked(k)) == k
    ensures forall j :: 0 <= j < n ==> (Indicators(Step(i, n, IndicatorClicked(k)), n)[j] <==> j == k)
  {
  }

  /** The three-item scenario of the tests: the first slide shows first,
      three presses of next pass through slides 1 and 2 and wrap to 0,
      previous from the first slide wraps to the last, and a single item
      stays put. */
  lemma ThreeItemScenario()
    ensures Next(Initial, 3) == 1
    ensures Next(Next(Initial, 3), 3) == 2
    ensures NextN(Initial, 3, 3) == 0
    ensures Prev(Initial, 3) == 2
    ensures Next(Step(Initial, 3, IndicatorClicked(2)), 3) == 0
    ensures Next(0, 1) == 0 && Prev(0, 1) == 0
  {
  }

  /** The item shown at mount is the first one. */
  lemma InitialShowsFirst(items: seq<CarouselItem>)
    requires |items| >= 1
    ensures ValidIndex(Initial, |items|)
    ensures Shown(items, Initial) == items[0]
  {
  }
}

=== FILE: decimal.dfy ===
/**
 Decimal text of integers, as JavaScript's `Number.prototype.toString()`
 writes an integer-valued number: the digits in base 10 with no leading
 zero, preceded by `-` when negative. `DecimalValue` and `ParseInt` read such
 text back and serve as the partner that pins the rendering down.
 */
module Decimal {

  predicate IsDigit(c: char) {
    '0' <= c <= '9'
  }

  /** The character of the decimal digit `d`. */
  function DigitChar(d: nat): (c: char)
    requires d < 10
    ensures IsDigit(c)
  {
    ('0' as int + d) as char
  }

  function DigitValue(c: char): (d: nat)
    requires IsDigit(c)
    ensures d < 10
  {
    c as int - '0' as int
  }

  predicate AllDigits(s: string) {
    forall i :: 0 <= i < |s| ==> IsDigit(s[i])
  }

  /** Digit text as `toString` produces it: non-empty, digits only, and no
      leading zero unless the text is "0" itself. */
  predicate Canonical(s: string) {
    && |s| > 0
    && AllDigits(s)
    && (s[0] == '0' ==> |s| == 1)
  }

  /** The value of a string of decimal digits, most significant first. */
  function DecimalValue(s: string): nat
    requires AllDigits(s)
  {
    if |s| == 0 then 0
    else DecimalValue(s[..|s| - 1]) * 10 + DigitValue(s[|s| - 1])
  }

  /** The decimal text of `n`. */
  function NatToDecimal(n: nat): (r: string)
    ensures Canonical(r)
    ensures n > 0 ==> r[0] != '0'
    ensures n < 10 <==> |r| == 1
  {
    if n < 10 then [DigitChar(n)]
    else NatToDecimal(n / 10) + [DigitChar(n % 10)]
  }

  /** Text of an optionally signed integer: digits, or `-` and digits. */
  predicate IntText(s: string) {
    && |s| > 0
    && (s[0] == '-' ==> AllDigits(s[1..]))
    && (s[0] != '-' ==> AllDigits(s))
  }

  /** The text `toString` gives an integer-valued number. */
  function IntToString(n: int): (r: string)
    ensures IntText(r)
    ensures n >= 0 ==> Canonical(r)
    ensures n < 0 ==> r[0] == '-' && Canonical(r[1..])
  {
    if n < 0 then "-" + NatToDecimal(-n) else NatToDecimal(n)
  }

  /** Reads text of the shape `IntToString` writes. */
  function ParseInt(s: string): int
    requires IntText(s)
  {
    if s[0] == '-' then var magnitude: int := DecimalValue(s[1..]); -magnitude
    else DecimalValue(s)
  }

  /** Reading the rendered digits back gives the number. */
  lemma {:induction false} NatToDecimalRoundTrip(n: nat)
    ensures DecimalValue(NatToDecimal(n)) == n
  {
    if n >= 10 {
      var s := NatToDecimal(n);
      var prefix := NatToDecimal(n / 10);
      assert s[..|s| - 1] == prefix;
      NatToDecimalRoundTrip(n / 10);
    }
  }

  /** A canonical digit string's value has a leading digit, so it is positive
      whenever the string is longer than one digit. */
  lemma {:induction false} CanonicalValueLowerBound(s: string)
    requires Canonical(s)
    ensures |s| > 1 ==> DecimalValue(s) >= 10
    ensures s[0] != '0' ==> DecimalValue(s) >= 1
  {
    if |s| > 1 {
      var prefix := s[..|s| - 1];
      assert Canonical(prefix);
      CanonicalValueLowerBound(prefix);
    }
  }

  /** The other direction: rendering the value of canonical text gives that
      text back, so `NatToDecimal` and `DecimalValue` are inverse bijections
      between naturals and canonical digit strings. */
  lemma {:induction false} DecimalValueRoundTrip(s: string)
    requires Canonical(s)
    ensures NatToDecimal(DecimalValue(s)) == s
  {
    if |s| > 1 {
      var prefix := s[..|s| - 1];
      assert Canonical(prefix);
      CanonicalValueLowerBound(prefix);
      DecimalValueRoundTrip(prefix);
      var v := DecimalValue(s);
      var d := DigitValue(s[|s| - 1]);
      assert v == DecimalValue(prefix) * 10 + d;
      assert v / 10 == DecimalValue(prefix) && v % 10 == d;
      assert DigitChar(d) == s[|s| - 1];
      assert s == prefix + [s[|s| - 1]];
    } else {
      assert DigitChar(DigitValue(s[0])) == s[0];
    }
  }

  /** `ParseInt` undoes `IntToString` on every integer. */
  lemma IntToStringRoundTrip(n: int)
    ensures ParseInt(IntToString(n)) == n
  {
    var s := IntToString(n);
    if n < 0 {
      var digits := NatToDecimal(-n);
      assert s == "-" + digits;
      assert s[1..] == digits;
      NatToDecimalRoundTrip(-n);
    } else {
      assert IsDigit(s[0]);
      NatToDecimalRoundTrip(n);
    }
  }
}

=== FILE: earnings_chart.dfy ===
/**
 The scaling of the earnings bar chart (`EarningsHistory.tsx`). The chart's
 y-axis runs over the fixed domain [700, 1100] and is 240 pixels tall; a bar
 rises from the bottom in proportion to how far its value is above 700, and a
 gridline sits below the top in proportion to how far its value is below
 1100. JavaScript numbers are modelled as exact reals.
 */
module EarningsChart {

  const MinValue: real := 700.0
  const MaxValue: real := 1100.0
  const ChartHeight: real := 240.0

  /** The values of the y-axis gridlines, top to bottom. */
  const YAxisValues: seq<real> := [1100.0, 1000.0, 900.0, 800.0, 700.0]

  datatype EarningsDataPoint = EarningsDataPoint(month: string, value: real)

  function Max(a: real, b: real): real {
    if a >= b then a else b
  }

  /** `getBarHeight`: the bar of a value, in pixels. Values at or below the
      bottom of the axis get no bar; there is no cap at the top. */
  function BarHeight(value: real): (h: real)
    ensures h >= 0.0
    ensures value <= MinValue ==> h == 0.0
    ensures value > MinValue ==> h > 0.0
  {
    var range := MaxValue - MinValue;
    var normalizedValue := Max(value - MinValue, 0.0);
    (normalizedValue / range) * ChartHeight
  }

  /** `getGridLinePosition`: the distance in pixels from the top of the chart
      at which a value's gridline is drawn. */
  function GridLinePosition(value: real): (y: real)
    ensures value <= MaxValue ==> y >= 0.0
    ensures value >= MinValue ==> y <= ChartHeight
  {
    var range := MaxValue - MinValue;
    var normalizedValue := MaxValue - value;
    (normalizedValue / range) * ChartHeight
  }

  /** The value whose bar is `h` pixels tall: the inverse of `BarHeight` on
      values at or above the bottom of the axis. */
  function ValueAtHeight(h: real): (v: real)
    requires h >= 0.0
    ensures v >= MinValue
  {
    MinValue + h * (MaxValue - MinValue) / ChartHeight
  }

  /** The value whose gridline is `y` pixels below the top. */
  function ValueAtPosition(y: real): real {
    MaxValue - y * (MaxValue - MinValue) / ChartHeight
  }

  /** The axis ends: the bottom value has no bar and its gridline at the
      bottom, the top value a full-height bar and its gridline at the top. */
  lemma AxisEnds()
    ensures BarHeight(MinValue) == 0.0
    ensures BarHeight(MaxValue) == ChartHeight
    ensures GridLinePosition(MaxValue) == 0.0
    ensures GridLinePosition(MinValue) == ChartHeight
  {
  }

  /** A larger value never gets a shorter bar. */
  lemma BarHeightMonotone(a: real, b: real)
    requires a <= b
    ensures BarHeight(a) <= BarHeight(b)
  {
  }

  /** Above the bottom of the axis, a larger value gets a strictly taller bar. */
  lemma BarHeightStrictlyMonotone(a: real, b: real)
    requires MinValue <= a < b
    ensures BarHeight(a) < BarHeight(b)
  {
  }

  /** A larger value's gridline is strictly higher up. */
  lemma GridLinePositionStrictlyDecreasing(a: real, b: real)
    requires a < b
    ensures GridLinePosition(a) > GridLinePosition(b)
  {
  }

  /** From the bottom of the axis up, the bar of a value reaches exactly the
      gridline of that value: bar height and gridline offset add up to the
      chart height. */
  lemma BarMeetsGridLine(value: real)
    requires value >= MinValue
    ensures BarHeight(value) + GridLinePosition(value) == ChartHeight
  {
  }

  /** `ValueAtHeight` inverts `BarHeight` in both directions. */
  lemma BarHeightRoundTrip(value: real, h: real)
    requires h >= 0.0
    ensures value >= MinValue ==> ValueAtHeight(BarHeight(value)) == value
    ensures BarHeight(ValueAtHeight(h)) == h
  {
  }

  /** `ValueAtPosition` inverts `GridLinePosition` in both directions. */
  lemma GridLinePositionRoundTrip(value: real, y: real)
    ensures ValueAtPosition(GridLinePosition(value)) == value
    ensures GridLinePosition(ValueAtPosition(y)) == y
  {
  }

  /** Nothing caps the bar: a value above the top of the axis gets a bar
      taller than the chart, as the boundary test's 1150 does. */
  lemma NoUpperClamp()
    ensures BarHeight(1150.0) == 270.0
    ensures BarHeight(1150.0) > ChartHeight
  {
  }

  /** Concrete heights of the mock and test data. */
  lemma BarHeightExamples()
    ensures BarHeight(800.0) == 60.0
    ensures BarHeight(1000.0) == 180.0
    ensures BarHeight(650.0) == 0.0
  {
  }

  /** The gridline positions of the y-axis values, top to bottom. They stay
      inside the chart, 60 pixels apart, and go down the chart in order. */
  method GridLines() returns (positions: seq<real>)
    ensures |positions| == |YAxisValues|
    ensures forall k :: 0 <= k < |positions| ==> 0.0 <= positions[k] <= ChartHeight
    ensures forall k :: 0 <= k < |positions| ==> positions[k] == 60.0 * k as real
    ensures forall j, k :: 0 <= j < k < |positions| ==> positions[j] < positions[k]
  {
    positions := [];
    var k := 0;
    while k < |YAxisValues|
      invariant 0 <= k <= |YAxisValues|
      invariant |positions| == k
      invariant forall j :: 0 <= j < k ==> positions[j] == 60.0 * j as real
    {
      positions := positions + [GridLinePosition(YAxisValues[k])];
      k := k + 1;
    }
  }

  /** The bar heights of a data series, in order. Each bar is non-negative,
      belongs to its own data point, and the bars keep the order of the
      values: a point with a larger value never has a shorter bar. */
  method BarHeights(data: seq<EarningsDataPoint>) returns (heights: seq<real>)
    ensures |heights| == |data|
    ensures forall k :: 0 <= k < |data| ==> heights[k] >= 0.0
    ensures forall k :: 0 <= k < |data| ==> (data[k].value <= MinValue <==> heights[k] == 0.0)
    ensures forall k :: 0 <= k < |data| && data[k].value >= MinValue ==>
      heights[k] + GridLinePosition(data[k].value) == ChartHeight
    ensures forall j, k :: 0 <= j < |data| && 0 <= k < |data| && data[j].value <= data[k].value ==>
      heights[j] <= heights[k]
  {
    heights := [];
    var k := 0;
    while k < |data|
      invariant 0 <= k <= |data|
      invariant |heights| == k
      invariant forall j :: 0 <= j < k ==> heights[j] == BarHeight(data[j].value)
    {
      heights := heights + [BarHeight(data[k].value)];
      k := k + 1;
    }
    forall j, i | 0 <= j < |data| && 0 <= i < |data| && data[j].value <= data[i].value
      ensures heights[j] <= heights[i]
    {
      BarHeightMonotone(data[j].value, data[i].value);
    }
    forall i | 0 <= i < |data| && data[i].value >= MinValue
      ensures heights[i] + GridLinePosition(data[i].value) == ChartHeight
    {
      BarMeetsGridLine(data[i].value);
    }
  }
}

=== FILE: format.dfy ===
/**
 The string formatters of `lib/format.ts`: compact number suffixes,
 ellipsis truncation of text, and the head...tail shortening of wallet
 addresses. Texts are JavaScript strings, so lengths and slice positions
 count UTF-16 code units. Lengths and character counts are JavaScript
 numbers; the model takes them as integers and follows
 `String.prototype.slice` for negative values, as the code does.
 */
module Format {
  import Js
  import Decimal
  import Utf16

  /** The `...` the formatters insert: three full stops, U+002E. */
  const Ellipsis: Utf16.JsString := [0x2E, 0x2E, 0x2E]

  const Thousand: int := 1000
  const Million: int := 1000000
  const Billion: int := 1000000000

  /** What `formatNumber` returns, before `toFixed` renders the digits: either
      the number divided down to a suffix, with the number of decimals it is
      to be printed with, or the plain decimal text of the number (digits and
      a minus sign, one code unit each), or the `RangeError` that `toFixed`
      throws for a digit count outside 0..100. */
  datatype Formatted =
    | Scaled(mantissa: real, decimals: int, suffix: char)
    | Plain(text: string)
    | RangeError

  /** The digit counts `Number.prototype.toFixed` accepts. */
  predicate FixedDigitsInRange(decimals: int) {
    0 <= decimals <= 100
  }

  /** The divisor a suffix stands for. */
  function SuffixScale(suffix: char): real {
    match suffix
    case 'B' => Billion as real
    case 'M' => Million as real
    case 'k' => Thousand as real
    case _ => 1.0
  }

  /** Orders the outcomes of `FormatNumber` from plain to billions. */
  function Magnitude(f: Formatted): nat {
    match f
    case Plain(_) => 0
    case RangeError => 0
    case Scaled(_, _, suffix) =>
      if suffix == 'B' then 3 else if suffix == 'M' then 2 else 1
  }

  /** The number divided down to a suffix and rendered with `toFixed`,
      which throws when the digit count is out of its range. */
  function ToFixedWithSuffix(mantissa: real, decimals: int, suffix: char): Formatted {
    if FixedDigitsInRange(decimals) then Scaled(mantissa, decimals, suffix) else RangeError
  }

  /** `formatNumber(num, decimals)` on an integer-valued `num`. The largest
      threshold the number reaches picks the suffix; the mantissa is exact,
      the text `toFixed` would make of it is not modelled. The plain branch
      uses `toString`, which ignores `decimals` and never throws. */
  function FormatNumber(num: int, decimals: int): (r: Formatted)
    ensures r.Plain? <==> num < Thousand
    ensures r.RangeError? <==> num >= Thousand && !FixedDigitsInRange(decimals)
    ensures FixedDigitsInRange(decimals) && num >= Billion ==> r.Scaled? && r.suffix == 'B'
    ensures FixedDigitsInRange(decimals) && Million <= num < Billion ==> r.Scaled? && r.suffix == 'M'
    ensures FixedDigitsInRange(decimals) && Thousand <= num < Million ==> r.Scaled? && r.suffix == 'k'
    ensures r.Scaled? ==> r.decimals == decimals
    ensures r.Scaled? ==> r.mantissa * SuffixScale(r.suffix) == num as real
    ensures r.Scaled? ==> 1.0 <= r.mantissa
    ensures r.Scaled? && r.suffix != 'B' ==> r.mantissa < 1000.0
    ensures r.Plain? ==> Decimal.IntText(r.text) && Decimal.ParseInt(r.text) == num
    ensures r.Plain? && num >= 0 ==> Decimal.Canonical(r.text)
    ensures r.Plain? && num < 0 ==> r.text[0] == '-' && Decimal.Canonical(r.text[1..])
  {
    if num >= Billion then ToFixedWithSuffix(num as real / Billion as real, decimals, 'B')
    else if num >= Million then ToFixedWithSuffix(num as real / Million as real, decimals, 'M')
    else if num >= Thousand then ToFixedWithSuffix(num as real / Thousand as real, decimals, 'k')
    else
      Decimal.IntToStringRoundTrip(num);
      Plain(Decimal.IntToString(num))
  }

  /** `formatNumber(num)`, with the default of one decimal: it never throws,
      and a suffixed number is printed with one decimal. */
  function FormatNumberDefault(num: int): (r: Formatted)
    ensures !r.RangeError?
    ensures r.Scaled? ==> r.decimals == 1
  {
    FormatNumber(num, 1)
  }

  /** A larger number never gets a smaller suffix. */
  lemma FormatNumberMonotone(a: int, b: int, decimals: int)
    requires a <= b
    requires FixedDigitsInRange(decimals)
    ensures Magnitude(FormatNumber(a, decimals)) <= Magnitude(FormatNumber(b, decimals))
  {
  }

  /** `truncateText(text, maxLength)`: text no longer than `maxLength` comes
      back unchanged, longer text is cut to its first `maxLength` characters
      and gets an ellipsis. A negative `maxLength` cuts that many characters
      off the end, as `slice` does. */
  function TruncateText(text: Utf16.JsString, maxLength: int): (r: Utf16.JsString)
    ensures |text| <= maxLength ==> r == text
    ensures 0 <= maxLength < |text| ==> r == text[..maxLength] + Ellipsis
    ensures maxLength < 0 && 0 <= |text| + maxLength ==> r == text[..|text| + maxLength] + Ellipsis
    ensures maxLength < 0 && |text| + maxLength < 0 ==> r == Ellipsis
    ensures 0 <= maxLength ==> |r| == (if |text| <= maxLength then |text| else maxLength + 3)
  {
    if |text| <= maxLength then text
    else Js.Slice(text, 0, maxLength) + Ellipsis
  }

  /** Truncating again with the same limit changes nothing: a truncated
      result is `maxLength + 3` long, so it is cut at the same place and the
      ellipsis it carries is replaced by an identical one. */
  lemma TruncateTextIdempotent(text: Utf16.JsString, maxLength: int)
    requires maxLength >= 0
    ensures TruncateText(TruncateText(text, maxLength), maxLength) == TruncateText(text, maxLength)
  {
    var once := TruncateText(text, maxLength);
    if |text| > maxLength {
      assert once[..maxLength] == text[..maxLength];
    }
  }

  /** Every result is the original text or a prefix of it followed by the
      ellipsis, and the prefix keeps the first `maxLength` characters. */
  lemma TruncateTextKeepsPrefix(text: Utf16.JsString, maxLength: int)
    requires maxLength >= 0
    ensures var r := TruncateText(text, maxLength);
      || r == text
      || (|r| == maxLength + 3 && r[..maxLength] == text[..maxLength] && r[maxLength..] == Ellipsis)
  {
  }

  /** On text in the Basic Multilingual Plane code units and characters
      coincide: truncation keeps the first `maxLength` characters. */
  lemma TruncateTextBmp(s: string, maxLength: int)
    requires forall i :: 0 <= i < |s| ==> Utf16.InBmp(s[i])
    requires 0 <= maxLength < |s|
    ensures TruncateText(Utf16.Encode(s), maxLength) == Utf16.Encode(s[..maxLength] + "...")
  {
    var u := Utf16.Encode(s);
    Utf16.EncodeBmpLength(s);
    Utf16.EncodeBmpPrefix(s, maxLength);
    assert TruncateText(u, maxLength) == u[..maxLength] + Ellipsis;
    Utf16.EncodeAppend(s[..maxLength], "...");
    EllipsisText();
  }

  /** `Ellipsis` is the text `...`. */
  lemma EllipsisText()
    ensures Utf16.Encode("...") == Ellipsis
  {
  }

  /** The cut falls between code units, so it can split a character outside
      the Basic Multilingual Plane and leave half of its surrogate pair, which
      reads back as U+FFFD. */
  lemma TruncateTextSplitsSurrogatePair()
    ensures |Utf16.Encode("\U{1F600}\U{1F600}")| == 4
    ensures TruncateText(Utf16.Encode("\U{1F600}\U{1F600}"), 3) == Utf16.Encode("\U{1F600}") + [0xD83D] + Ellipsis
    ensures Utf16.Decode(TruncateText(Utf16.Encode("\U{1F600}\U{1F600}"), 3)) == "\U{1F600}\U{FFFD}..."
  {
  }

  /** "Truncation" can lengthen the text: a text one character over the limit
      loses that character and gains three. */
  lemma TruncateTextCanLengthen()
    ensures TruncateText(Utf16.FromCharCodes("123456789"), 8) == Utf16.FromCharCodes("12345678...")
    ensures |TruncateText(Utf16.FromCharCodes("123456789"), 8)| > |"123456789"|
  {
  }

  /** With a negative limit the text loses characters from its end on each
      application, so truncation is not idempotent there. */
  lemma TruncateTextNegativeNotIdempotent()
    ensures TruncateText(Utf16.FromCharCodes("abc"), -1) == Utf16.FromCharCodes("ab...")
    ensures TruncateText(TruncateText(Utf16.FromCharCodes("abc"), -1), -1) == Utf16.FromCharCodes("ab.....")
  {
  }

  /** The expected outputs of the unit tests. */
  lemma TruncateTextExamples()
    ensures TruncateText(Utf16.FromCharCodes("Hello World"), 8) == Utf16.FromCharCodes("Hello Wo...")
    ensures TruncateText(Utf16.FromCharCodes("Hi"), 8) == Utf16.FromCharCodes("Hi")
    ensures TruncateText(Utf16.FromCharCodes("12345678"), 8) == Utf16.FromCharCodes("12345678")
    ensures TruncateText([], 5) == []
  {
  }

  /** `formatAddress(address, startChars, endChars)`. An address no longer
      than `startChars + endChars` comes back unchanged; a longer one keeps
      its first `startChars` and last `endChars` characters with an ellipsis
      between. With `endChars == 0` the tail is `slice(-0)`, which is the
      whole address. */
  function FormatAddress(address: Utf16.JsString, startChars: int, endChars: int): (r: Utf16.JsString)
    ensures |address| <= startChars + endChars ==> r == address
    ensures 0 <= startChars && 1 <= endChars && startChars + endChars < |address| ==>
      r == address[..startChars] + Ellipsis + address[|address| - endChars..]
    ensures 0 <= startChars && endChars == 0 && startChars < |address| ==>
      r == address[..startChars] + Ellipsis + address
  {
    if |address| <= startChars + endChars then address
    else Js.Slice(address, 0, startChars) + Ellipsis + Js.SliceFrom(address, -endChars)
  }

  /** `formatAddress(address)` with its default counts, six and four. */
  function FormatAddressDefault(address: Utf16.JsString): (r: Utf16.JsString)
    ensures |address| <= 10 ==> r == address
    ensures |address| > 10 ==>
      |r| == 13 && r[..6] == address[..6] && r[6..9] == Ellipsis && r[9..] == address[|address| - 4..]
  {
    FormatAddress(address, 6, 4)
  }

  /** A shortened address has exactly `startChars + endChars + 3` characters,
      begins with the address's head, ends with its tail, and has the
      ellipsis in between. */
  lemma FormatAddressShape(address: Utf16.JsString, startChars: nat, endChars: nat)
    requires 1 <= endChars
    requires startChars + endChars < |address|
    ensures var r := FormatAddress(address, startChars, endChars);
      && |r| == startChars + endChars + 3
      && r[..startChars] == address[..startChars]
      && r[startChars..startChars + 3] == Ellipsis
      && r[|r| - endChars..] == address[|address| - endChars..]
  {
    var r := FormatAddress(address, startChars, endChars);
    assert r[|r| - endChars..] == address[|address| - endChars..];
  }

  /** Shortening an already shortened address changes nothing, as long as a
      tail is kept: the result is over the limit, and its own head and tail
      are the original ones. */
  lemma FormatAddressIdempotent(address: Utf16.JsString, startChars: nat, endChars: nat)
    requires 1 <= endChars
    ensures var r := FormatAddress(address, startChars, endChars);
      FormatAddress(r, startChars, endChars) == r
  {
    var r := FormatAddress(address, startChars, endChars);
    if startChars + endChars < |address| {
      FormatAddressShape(address, startChars, endChars);
      assert r == r[..startChars] + Ellipsis + r[|r| - endChars..];
    }
  }

  /** With no tail requested, `slice(-0)` appends the whole address, so the
      result is longer than the address and applying it again lengthens it
      once more. */
  lemma FormatAddressZeroTailGrows(address: Utf16.JsString, startChars: int)
    requires 0 <= startChars < |address|
    ensures var r := FormatAddress(address, startChars, 0);
      && |r| == |address| + startChars + 3
      && |FormatAddress(r, startChars, 0)| == |address| + 2 * (startChars + 3)
  {
  }

  /** The same on a short address. */
  lemma FormatAddressZeroTailExample()
    ensures FormatAddress(Utf16.FromCharCodes("0x1234"), 2, 0) == Utf16.FromCharCodes("0x...0x1234")
    ensures FormatAddress(Utf16.FromCharCodes("0x...0x1234"), 2, 0) == Utf16.FromCharCodes("0x...0x...0x1234")
  {
    var u := Utf16.FromCharCodes("0x1234");
    assert u[..2] == Utf16.FromCharCodes("0x");
    assert Utf16.FromCharCodes("0x") + Ellipsis + u == Utf16.FromCharCodes("0x...0x1234");
    var v := Utf16.FromCharCodes("0x...0x1234");
    assert v[..2] == Utf16.FromCharCodes("0x");
  }

  /** The long address of the unit tests. */
  const TestAddress: string := "0x1234567890abcdef1234567890abcdef12345678"

  /** The heads and tails of the long address the unit tests look at, as
      text. */
  lemma TestAddressText()
    ensures |TestAddress| == 42
    ensures TestAddress[..4] == "0x12"
    ensures TestAddress[..6] == "0x1234"
    ensures TestAddress[..8] == "0x123456"
    ensures TestAddress[42 - 4..] == "5678"
    ensures TestAddress[42 - 6..] == "345678"
  {
    var a := TestAddress;
    assert a[0] == '0';
    assert a[1] == 'x';
    assert a[2] == '1';
    assert a[3] == '2';
    assert a[..4] == "0x12";
    assert a[4] == '3';
    assert a[5] == '4';
    assert a[..6] == a[..4] + [a[4], a[5]];
    assert a[6] == '5';
    assert a[7] == '6';
    assert a[..8] == a[..6] + [a[6], a[7]];
    assert a[42 - 4..] == "5678";
    assert a[42 - 6..] == "345678";
  }

  /** The same pieces as code units. */
  lemma TestAddressPieces()
    ensures var u := Utf16.FromCharCodes(TestAddress);
      && |u| == 42
      && u[..4] == Utf16.FromCharCodes("0x12")
      && u[..6] == Utf16.FromCharCodes("0x1234")
      && u[..8] == Utf16.FromCharCodes("0x123456")
      && u[42 - 4..] == Utf16.FromCharCodes("5678")
      && u[42 - 6..] == Utf16.FromCharCodes("345678")
  {
    var a := TestAddress;
    TestAddressText();
    Utf16.FromCharCodesSlice(a, 0, 4);
    Utf16.FromCharCodesSlice(a, 0, 6);
    Utf16.FromCharCodesSlice(a, 0, 8);
    Utf16.FromCharCodesSlice(a, 42 - 4, 42);
    Utf16.FromCharCodesSlice(a, 42 - 6, 42);
  }

  /** `formatAddress(longAddress)`, with the default six and four. */
  lemma FormatAddressDefaultExample()
    ensures FormatAddressDefault(Utf16.FromCharCodes(TestAddress)) == Utf16.FromCharCodes("0x1234...5678")
  {
    TestAddressPieces();
  }

  /** `formatAddress(longAddress, 4, 4)` and `formatAddress(longAddress, 8, 6)`. */
  lemma FormatAddressLongExamples()
    ensures FormatAddress(Utf16.FromCharCodes(TestAddress), 4, 4) == Utf16.FromCharCodes("0x12...5678")
    ensures FormatAddress(Utf16.FromCharCodes(TestAddress), 8, 6) == Utf16.FromCharCodes("0x123456...345678")
  {
    TestAddressPieces();
  }

  /** The expected outputs of the doc comment and of the unit tests for
      short addresses. */
  lemma FormatAddressShortExamples()
    ensures FormatAddress(Utf16.FromCharCodes("0x1234567890abcdef"), 4, 4) == Utf16.FromCharCodes("0x12...cdef")
    ensures FormatAddress(Utf16.FromCharCodes("0x1234"), 6, 4) == Utf16.FromCharCodes("0x1234")
    ensures FormatAddress(Utf16.FromCharCodes("0x12345678"), 6, 4) == Utf16.FromCharCodes("0x12345678")
    ensures FormatAddressDefault([]) == []
  {
    var a := "0x1234567890abcdef";
    assert a[..4] == "0x12" by {
      assert a[0] == '0' && a[1] == 'x' && a[2] == '1' && a[3] == '2';
    }
    assert a[|a| - 4..] == "cdef";
    Utf16.FromCharCodesSlice(a, 0, 4);
    Utf16.FromCharCodesSlice(a, |a| - 4, |a|);
  }

  /** The expected suffix choices of the unit tests. */
  lemma FormatNumberExamples()
    ensures FormatNumberDefault(1234567890) == Scaled(1.23456789, 1, 'B')
    ensures FormatNumberDefault(5000000000) == Scaled(5.0, 1, 'B')
    ensures FormatNumberDefault(1234567) == Scaled(1.234567, 1, 'M')
    ensures FormatNumberDefault(5000000) == Scaled(5.0, 1, 'M')
    ensures FormatNumber(1234567, 2) == Scaled(1.234567, 2, 'M')
    ensures FormatNumber(1234567, 0) == Scaled(1.234567, 0, 'M')
    ensures FormatNumberDefault(1234) == Scaled(1.234, 1, 'k')
    ensures FormatNumberDefault(5000) == Scaled(5.0, 1, 'k')
    ensures FormatNumberDefault(123) == Plain("123")
    ensures FormatNumberDefault(999) == Plain("999")
  {
  }
}

=== FILE: helpers_format.dfy ===
/**
 The second copy of the formatters, in `helpers/format.ts`. Its code is the
 same as that of `lib/format.ts`; each function here is written from this
 copy's own text and promises, besides its own behaviour, that it agrees
 with its `Format` counterpart on every input.
 */
module HelpersFormat {
  import Js
  import Decimal
  import Format
  import Utf16

  function FormatNumber(num: int, decimals: int): (r: Format.Formatted)
    ensures r == Format.FormatNumber(num, decimals)
    ensures 0 <= decimals <= 100 ==>
      && (num >= 1000000000 <==> r.Scaled? && r.suffix == 'B')
      && (1000000 <= num < 1000000000 <==> r.Scaled? && r.suffix == 'M')
      && (1000 <= num < 1000000 <==> r.Scaled? && r.suffix == 'k')
    ensures r.RangeError? <==> num >= 1000 && !(0 <= decimals <= 100)
  {
    if num >= 1000000000 then Format.ToFixedWithSuffix(num as real / 1000000000.0, decimals, 'B')
    else if num >= 1000000 then Format.ToFixedWithSuffix(num as real / 1000000.0, decimals, 'M')
    else if num >= 1000 then Format.ToFixedWithSuffix(num as real / 1000.0, decimals, 'k')
    else Format.Plain(Decimal.IntToString(num))
  }

  function TruncateText(text: Utf16.JsString, maxLength: int): (r: Utf16.JsString)
    ensures r == Format.TruncateText(text, maxLength)
    ensures |text| <= maxLength ==> r == text
    ensures 0 <= maxLength < |text| ==> r == text[..maxLength] + Format.Ellipsis
  {
    if |text| <= maxLength then text
    else Js.Slice(text, 0, maxLength) + Format.Ellipsis
  }

  function FormatAddress(address: Utf16.JsString, startChars: int, endChars: int): (r: Utf16.JsString)
    ensures r == Format.FormatAddress(address, startChars, endChars)
    ensures |address| <= startChars + endChars ==> r == address
    ensures 0 <= startChars && 1 <= endChars && startChars + endChars < |address| ==>
      r == address[..startChars] + Format.Ellipsis + address[|address| - endChars..]
  {
    if |address| <= startChars + endChars then address
    else Js.Slice(address, 0, startChars) + Format.Ellipsis + Js.SliceFrom(address, -endChars)
  }

  /** The doc comment's example, with the default counts six and four. */
  lemma FormatAddressDocExample()
    ensures FormatAddress(Utf16.FromCharCodes("0x1234567890abcdef"), 6, 4) == Utf16.FromCharCodes("0x1234...cdef")
  {
    var a := "0x1234567890abcdef";
    assert a[..6] == "0x1234" by {
      assert a[0] == '0' && a[1] == 'x' && a[2] == '1' && a[3] == '2';
      assert a[4] == '3' && a[5] == '4';
    }
    assert a[|a| - 4..] == "cdef";
    Utf16.FromCharCodesSlice(a, 0, 6);
    Utf16.FromCharCodesSlice(a, |a| - 4, |a|);
  }
}

=== FILE: js.dfy ===
/**
 The few pieces of JavaScript's built-in semantics the formatters and the
 carousel lean on: `String.prototype.slice` with its negative (from-the-end)
 indices, and the `%` operator, which truncates toward zero.
 */
module Js {

  /** The position `String.prototype.slice` resolves an index `k` to in a
      string of length `len`: negative indices count from the end, and the
      result is clamped to `[0, len]`. */
  function RelativeIndex(len: nat, k: int): (r: nat)
    ensures r <= len
  {
    if k < 0 then (if len + k < 0 then 0 else len + k)
    else if k > len then len
    else k
  }

  /** `s.slice(start, end)`, on the string's code units. */
  function Slice<T>(s: seq<T>, start: int, end: int): (r: seq<T>)
    ensures |r| <= |s|
    ensures 0 <= start <= end <= |s| ==> r == s[start..end]
    ensures end < 0 && 0 <= start <= |s| + end ==> r == s[start..|s| + end]
    ensures end <= start && 0 <= end ==> r == []
    ensures 0 <= start <= |s| <= end ==> r == s[start..]
    ensures end < -|s| ==> r == []
    ensures start < 0 && 0 <= |s| + start <= end <= |s| ==> r == s[|s| + start..end]
  {
    var from := RelativeIndex(|s|, start);
    var to := RelativeIndex(|s|, end);
    if from <= to then s[from..to] else []
  }

  /** `s.slice(start)`: from `start` to the end of the string. */
  function SliceFrom<T>(s: seq<T>, start: int): (r: seq<T>)
    ensures |r| <= |s|
    ensures 0 <= start <= |s| ==> r == s[start..]
    ensures 0 < -start <= |s| ==> r == s[|s| + start..] && |r| == -start
    ensures start < -|s| ==> r == s
    ensures start >= |s| ==> r == []
  {
    s[RelativeIndex(|s|, start)..]
  }

  /** JavaScript's `a % b` for a positive divisor: the remainder takes the
      sign of the dividend (truncated division), unlike Dafny's Euclidean `%`. */
  function Rem(a: int, b: int): (r: int)
    requires b > 0
    ensures -b < r < b
    ensures a >= 0 ==> r >= 0
    ensures a <= 0 ==> r <= 0
    ensures a >= 0 ==> r == a % b
    ensures a < 0 ==> r == -((-a) % b)
    ensures 0 <= a < b ==> r == a
    ensures b <= a < 2 * b ==> r == a - b
  {
    if a >= 0 then
      if a < b then ModBelow(a, b); a % b
      else if a < 2 * b then ModOnce(a, b); a % b
      else a % b
    else -((-a) % b)
  }

  lemma ModBelow(a: int, b: int)
    requires 0 <= a < b
    ensures a % b == a
  {
  }

  lemma ModOnce(a: int, b: int)
    requires 0 < b <= a < 2 * b
    ensures a % b == a - b
  {
    ModBelow(a - b, b);
    assert (a - b) % b == a % b;
  }
}

=== FILE: utf16.dfy ===
/**
 JavaScript strings are sequences of UTF-16 code units: `.length` counts
 code units and `slice` cuts between them, even inside a surrogate pair.
 Dafny's `string` is a sequence of Unicode scalar values, so the formatters
 work on `JsString`, and `Encode` turns Dafny text into what JavaScript
 holds. `Decode` reads it back, with U+FFFD for a lone surrogate as
 `TextDecoder` does.
 */
module Utf16 {

  newtype CodeUnit = x: int | 0 <= x < 0x1_0000

  type JsString = seq<CodeUnit>

  predicate IsHighSurrogate(u: CodeUnit) {
    0xD800 <= u < 0xDC00
  }

  predicate IsLowSurrogate(u: CodeUnit) {
    0xDC00 <= u < 0xE000
  }

  /** Whether a character fits in one code unit (the Basic Multilingual Plane). */
  predicate InBmp(c: char) {
    (c as int) < 0x1_0000
  }

  /** The code units of one character: itself, or a surrogate pair. */
  function EncodeChar(c: char): (u: JsString)
    ensures |u| == (if InBmp(c) then 1 else 2)
    ensures InBmp(c) ==> u[0] as int == c as int && !IsHighSurrogate(u[0]) && !IsLowSurrogate(u[0])
    ensures !InBmp(c) ==> IsHighSurrogate(u[0]) && IsLowSurrogate(u[1])
  {
    var v := c as int;
    if v < 0x1_0000 then [v as CodeUnit]
    else
      var offset := v - 0x1_0000;
      [(0xD800 + offset / 0x400) as CodeUnit, (0xDC00 + offset % 0x400) as CodeUnit]
  }

  /** The UTF-16 form of a text, as a JavaScript string holds it. */
  function Encode(s: string): (u: JsString)
    ensures |s| <= |u| <= 2 * |s|
  {
    if |s| == 0 then [] else EncodeChar(s[0]) + Encode(s[1..])
  }

  const Replacement: char := '�'

  /** The character of a surrogate pair. */
  function Combine(high: CodeUnit, low: CodeUnit): (c: char)
    requires IsHighSurrogate(high) && IsLowSurrogate(low)
    ensures !InBmp(c)
  {
    (0x1_0000 + (high as int - 0xD800) * 0x400 + (low as int - 0xDC00)) as char
  }

  /** Reads code units back as text; a surrogate without its partner reads
      as U+FFFD. */
  function Decode(u: JsString): string
    decreases |u|
  {
    if |u| == 0 then []
    else if IsHighSurrogate(u[0]) && |u| >= 2 && IsLowSurrogate(u[1]) then [Combine(u[0], u[1])] + Decode(u[2..])
    else if IsHighSurrogate(u[0]) || IsLowSurrogate(u[0]) then [Replacement] + Decode(u[1..])
    else [u[0] as int as char] + Decode(u[1..])
  }

  /** `String.fromCharCode` applied to the number of each character: it
      keeps the low sixteen bits, one code unit per character. */
  function FromCharCodes(s: string): (u: JsString)
    ensures |u| == |s|
    ensures forall i :: 0 <= i < |s| && InBmp(s[i]) ==> u[i] as int == s[i] as int
  {
    seq(|s|, i requires 0 <= i < |s| => (s[i] as int % 0x1_0000) as CodeUnit)
  }

  /** Building a string and slicing it, or slicing the text first, give the
      same code units. */
  lemma FromCharCodesSlice(s: string, i: nat, j: nat)
    requires i <= j <= |s|
    ensures FromCharCodes(s)[i..j] == FromCharCodes(s[i..j])
  {
  }

  /** On text in the Basic Multilingual Plane, `String.fromCharCode` of the
      characters' numbers builds the same string as the text's UTF-16 form. */
  lemma {:induction false} FromCharCodesEncode(s: string)
    requires forall i :: 0 <= i < |s| ==> InBmp(s[i])
    ensures FromCharCodes(s) == Encode(s)
    decreases |s|
  {
    if |s| > 0 {
      assert forall i :: 0 <= i < |s[1..]| ==> InBmp(s[1..][i]) by {
        forall i | 0 <= i < |s[1..]| ensures InBmp(s[1..][i]) {
          assert s[1..][i] == s[i + 1];
        }
      }
      FromCharCodesEncode(s[1..]);
      assert InBmp(s[0]);
      var u := FromCharCodes(s);
      assert u[1..] == FromCharCodes(s[1..]);
      assert u == [u[0]] + u[1..];
    }
  }

  /** Encoding distributes over concatenation. */
  lemma {:induction false} EncodeAppend(a: string, b: string)
    ensures Encode(a + b) == Encode(a) + Encode(b)
    decreases |a|
  {
    if |a| > 0 {
      assert (a + b)[0] == a[0] && (a + b)[1..] == a[1..] + b;
      EncodeAppend(a[1..], b);
      assert Encode(a + b) == EncodeChar(a[0]) + (Encode(a[1..]) + Encode(b));
    } else {
      assert a + b == b;
    }
  }

  /** Text in the Basic Multilingual Plane takes one code unit per
      character. */
  lemma {:induction false} EncodeBmpLength(s: string)
    requires forall i :: 0 <= i < |s| ==> InBmp(s[i])
    ensures |Encode(s)| == |s|
    decreases |s|
  {
    if |s| > 0 {
      assert InBmp(s[0]);
      assert forall i :: 0 <= i < |s[1..]| ==> InBmp(s[1..][i]) by {
        forall i | 0 <= i < |s[1..]| ensures InBmp(s[1..][i]) {
          assert s[1..][i] == s[i + 1];
        }
      }
      EncodeBmpLength(s[1..]);
    }
  }

  /** For text in the Basic Multilingual Plane, the first `k` code units are
      the encoding of the first `k` characters. */
  lemma EncodeBmpPrefix(s: string, k: nat)
    requires forall i :: 0 <= i < |s| ==> InBmp(s[i])
    requires k <= |s|
    ensures Encode(s)[..k] == Encode(s[..k])
  {
    var head, tail := s[..k], s[k..];
    assert s == head + tail;
    EncodeAppend(head, tail);
    assert forall i :: 0 <= i < |head| ==> InBmp(head[i]) by {
      forall i | 0 <= i < |head| ensures InBmp(head[i]) {
        assert head[i] == s[i];
      }
    }
    EncodeBmpLength(head);
    var encodedHead, encodedTail := Encode(head), Encode(tail);
    assert Encode(s) == encodedHead + encodedTail;
    assert (encodedHead + encodedTail)[..k] == encodedHead;
  }

  /** Decoding the code units of one character gives that character back. */
  lemma DecodeEncodeChar(c: char, rest: JsString)
    ensures Decode(EncodeChar(c) + rest) == [c] + Decode(rest)
  {
    var u := EncodeChar(c) + rest;
    if InBmp(c) {
      assert u[1..] == rest;
    } else {
      var offset := c as int - 0x1_0000;
      assert u[0] as int == 0xD800 + offset / 0x400;
      assert u[1] as int == 0xDC00 + offset % 0x400;
      assert Combine(u[0], u[1]) == c;
      assert u[2..] == rest;
    }
  }

  /** Decoding undoes encoding for every text. */
  lemma {:induction false} DecodeEncode(s: string)
    ensures Decode(Encode(s)) == s
    decreases |s|
  {
    if |s| > 0 {
      DecodeEncodeChar(s[0], Encode(s[1..]));
      DecodeEncode(s[1..]);
      assert s == [s[0]] + s[1..];
    }
  }
}
